=== FILE: README.md ===
# BibTeX macro table and AST resolver, modelled in Dafny

This project models the hand-written part of a BibTeX parser library: the
`Parser` class's **macro table** and its **AST resolver**. The grammar hands
over a list of entry nodes. Each node has a key, an entry type, a metatype
(`REGULAR`, `COMMENT`, `PREAMBLE`, `MACRODEF`, `UNKNOWN`) and fields whose
values take one of three shapes:

- a plain string;
- a `#` concatenation;
- a bare-word macro reference.

The resolver walks the nodes in source order. A `@string` (`MACRODEF`) entry
binds its fields in the macro table. Every entry then has its fields reduced
to strings, and its field names are lower-cased. `parseString` wraps all of
this: any exception produces an empty result, and the `EXPAND_MACROS` option
bit (value 2) asks for one more expansion pass.

Modules:

- `Types` (`types.dfy`): the entry record, the metatype enum, the raw value
  tree (`Literal | Concat | MacroRef`) and the errors `defineMacro` throws.
- `Text` (`text.dfy`): ASCII lower-casing, the bare-word character class
  `[a-zA-Z0-9!$&*+\-./:<>?[\]^_`|]` and string joining.
- `MacroTable` (`macro_table.dfy`): `defineMacro`, `lookupMacro`,
  `macroExists`, `deleteMacro`, `clearMacros` and `getMacroNames`. These are
  pure functions over a `map<string, string>`; the ones that change the table
  (`DefineMacro`, `DeleteMacro`, `ClearMacros`) return the new table.
- `Resolver` (`resolver.dfy`): the two value reducers, the binding of
  `@string` fields and `processAst`.
- `ResolverLaws` (`resolver_laws.dfy`): laws that span several calls.
  Examples are source-order composition and the throw caused by a rebinding.
- `Parsing` (`parsing.dfy`): `parseString` and the expansion pass. The
  grammar is a parameter: its output (`Ast`) or its `SyntaxError`.
- `Scenarios` (`scenarios.dfy`): concrete cases taken from the repository's
  tests.

A thrown exception becomes a failure value. Because the source mutates the
table in place, the failure value carries the table as it stood when the
exception was thrown.

Two consequences of the code are worth stating up front:

- **`@string` entries cannot redefine a macro.** They bind through
  `defineMacro`, which throws on an existing key (src/lib/parser.ts:22-24,
  142-148). So `parseString` returns no entries and keeps the bindings made
  before the throw.
- **`@string` field names are not lower-cased.** They are bound as the grammar
  delivered them (src/lib/parser.ts:138-148), while lookups lower-case the
  name they are given.

## Model

| member | source | states |
|---|---|---|
| Text.Lower | src/lib/parser.ts:34-37 | every character is kept except that an ASCII capital becomes its small letter; the length is unchanged |
| Text.LowerFixesExactlyLowerCase | src/lib/parser.ts:34-37 | lower-casing leaves a string unchanged exactly when it holds no capital letter |
| Text.LowerIdempotent | src/lib/parser.ts:34-37 | lower-casing twice is lower-casing once, so a lower-cased key is found again by a lookup |
| Text.BareWordMatchesRegex | src/lib/parser.ts:88 | the bare-word test accepts exactly the strings the anchored regular expression `^[...]+$` matches, read as one class character followed by the end or another match |
| Text.JoinWithCons | src/lib/parser.ts:168-170 | `join(sep)` puts the separator before every element after the first |
| Text.JoinIsJoinWithEmpty | src/lib/parser.ts:77 | `join('')` is `join` with the empty separator |
| Text.JoinAppend | src/lib/parser.ts:77 | joining a concatenation of lists is joining each and concatenating |
| Parsing.ExpandRequestedIsBitOne | src/lib/parser.ts:109 | the option test holds exactly when the bit of value 2 (`EXPAND_MACROS`) of the two's complement representation is set, negative options included |
| MacroTable.DefineMacro | src/lib/parser.ts:16-29 | fails exactly when the name is empty or is already a key, compared case-sensitively; otherwise adds only name ↦ text and keeps every other binding |
| MacroTable.LookupMacro | src/lib/parser.ts:34-37 | gives nothing for the empty name; otherwise gives the binding of the lower-cased name, if there is one |
| MacroTable.MacroExists | src/lib/parser.ts:64-66 | holds exactly when the lower-cased name is bound |
| MacroTable.DeleteMacro | src/lib/parser.ts:46-52 | reports false and leaves the table unchanged for an empty or unbound name; otherwise removes only the lower-cased key |
| MacroTable.ClearMacros | src/lib/parser.ts:42-44 | afterwards no name is listed, no lookup succeeds and no name exists |
| MacroTable.GetMacroNames | src/lib/parser.ts:57-59 | lists exactly the bound names, as a set |
| MacroTable.ExistsAgreesWithLookup | src/lib/parser.ts:34-66 | on every non-empty name, `macroExists` holds exactly when `lookupMacro` finds something; both ignore case |
| MacroTable.NamesAgreeWithExists | src/lib/parser.ts:57-66 | a lower-case name is listed exactly when `macroExists` holds for it |
| MacroTable.DefineThenLookup | src/lib/parser.ts:16-37 | a macro defined under a lower-case name is found with its text, and no other lookup changes |
| MacroTable.CapitalisedDefinitionIsInvisible | src/lib/parser.ts:22-36 | a name with a capital letter, defined through `defineMacro`, is found by neither `lookupMacro` nor `macroExists` |
| MacroTable.DefineCheckIsCaseSensitive | src/lib/parser.ts:21-24 | with `journal` bound, defining `Journal` succeeds and defining `journal` throws |
| MacroTable.DeleteRemovesOnlyThatMacro | src/lib/parser.ts:46-52 | after a delete the name is gone in every case spelling, other names keep their bindings, and the name can be defined again |
| MacroTable.DeleteIsCaseInsensitive | src/lib/parser.ts:47-50 | deleting a name and deleting its lower-cased form have the same effect |
| MacroTable.DeleteScenario | test/parser.test.ts:267-293 | the deletion test: `journal` goes and `publisher` stays; `nonexistent` is not deleted; `PUBLISHER` removes `publisher` |
| Resolver.ExpandText | src/lib/parser.ts:87-95 | a string changes only when it is one whole bare word bound under its lower-case form, and then becomes that binding; "" stays "" |
| Resolver.Expand | src/lib/parser.ts:71-96 | a macro reference gives the binding of its lower-cased name (even an empty one), or else the lower-cased name; a literal behaves as in `ExpandText` |
| Resolver.ExpandConcatAppend | src/lib/parser.ts:74-78 | a concatenation reduces part by part, in order: splitting its parts splits the result at the same place |
| Resolver.ExpandSingletonConcat | src/lib/parser.ts:74-78 | a one-part concatenation reduces to that part's reduction |
| Resolver.ExpandEmptyConcat | src/lib/parser.ts:74-78 | a concatenation with no parts reduces to "" |
| Resolver.OrName | src/lib/parser.ts:173 | `x || name` gives the found value whenever it is defined and non-empty, and the name otherwise |
| Resolver.ReducePart | src/lib/parser.ts:162-169 | a part inside a field concatenation: a string is kept, a macro is looked up with fallback to its name, a nested concatenation is left as its array text |
| Resolver.ArrayText | src/lib/parser.ts:168-170 | the text JavaScript gives an AST array coerced to a string, which is `join(",")` of its elements: `["macro", name]` joined with commas, and `["concat"]` followed by the parts, each part converted the same way; a string part is itself |
| Resolver.ReduceField | src/lib/parser.ts:157-174 | a field string is kept unchanged; a field macro reference gives `lookupMacro(name)`, or the raw name when that is undefined or ""; concatenations are pinned by the three concatenation laws below |
| Resolver.ReduceFieldEmptyConcat | src/lib/parser.ts:160-170 | a field concatenation with no parts gives "" |
| Resolver.ReduceFieldSingletonConcat | src/lib/parser.ts:160-170 | a one-part field concatenation gives that part's reduction |
| Resolver.ReduceFieldConcatAppend | src/lib/parser.ts:160-170 | a field concatenation reduces part by part, in order: splitting its parts splits the result at the same place |
| Resolver.ReducersAgree | src/lib/parser.ts:157-175 | the field reducer agrees with `expandMacrosInValue` on flat values whose macro names are lower-case and non-empty, bound to non-empty text, and whose literals are not bound bare words |
| Resolver.ReducersDifferOnEmptyMacro | src/lib/parser.ts:171-173 | a macro bound to "" reduces to "" in `expandMacrosInValue` but to its name in a field |
| Resolver.ReducersDifferOnBoundLiteral | src/lib/parser.ts:158-159 | a string field that is a bound bare word is kept as it is, while `expandMacrosInValue` replaces it |
| Resolver.NestedConcatIsNotResolved | src/lib/parser.ts:168-170 | a concatenation nested in a field concatenation is joined as array text ("concat,macro,j"), not resolved |
| Resolver.ReduceFields | src/lib/parser.ts:154-175 | the output field names are exactly the lower-cased input names; where two names collide, the later field's value wins |
| Resolver.Resolve | src/lib/parser.ts:153-180 | key, type and metatype pass through unchanged; the field names are the lower-cased input names, and each name carries the reduced value of the last field with that name |
| Resolver.BindingText | src/lib/parser.ts:139-149 | a `@string` string is bound verbatim, a lone bare word binds the referenced name itself, and a concatenation binds its expansion |
| Resolver.BindMacroDefs | src/lib/parser.ts:136-151 | binding succeeds exactly when every name is non-empty, unbound and not repeated; no earlier binding is lost, even on a throw; on success exactly the field names are added |
| Resolver.BindingKeepsEarlierFields | src/lib/parser.ts:136-151 | a field whose name and every earlier name are fresh is bound, and a non-concatenation keeps its binding text, whether or not a later field of the same entry throws: `defineMacro` writes into the table at once |
| Resolver.BindMacroDefsAppend | src/lib/parser.ts:136-151 | binding the fields `a + b` is binding `a`, then `b` against the table `a` left; a throw in `a` is the result, so no field after the throwing one is bound |
| Resolver.ProcessEntry | src/lib/parser.ts:133-180 | a non-`@string` entry leaves the table alone; a `@string` entry succeeds exactly when its names are fresh, leaves exactly the table its bindings produce, and has its own fields reduced against that table |
| Resolver.ProcessAst | src/lib/parser.ts:127-182 | on success there is one entry per non-null node, in order, with header and field names preserved; the table only grows; with no `@string` entries the walk cannot throw and leaves the table unchanged |
| ResolverLaws.ProcessAstAppend | src/lib/parser.ts:132-181 | resolving `a + b` means resolving `a`, then resolving `b` against the table `a` left behind; a throw in `a` ends the walk |
| ResolverLaws.ProcessAstSkipsNull | src/lib/parser.ts:133 | a null node is dropped and the table is untouched |
| ResolverLaws.ProcessAstCons | src/lib/parser.ts:132-181 | the first entry is processed against the current table, its entry comes first, and the rest is processed against the table it leaves, so its bindings are visible to later entries |
| ResolverLaws.EntryBindsItsNames | src/lib/parser.ts:136-150 | a `@string` entry processed without a throw binds each of its field names |
| ResolverLaws.ProcessAstBindsNames | src/lib/parser.ts:132-151 | a walk that completes leaves every name bound by any of its `@string` nodes in the table |
| ResolverLaws.RebindingThrows | src/lib/parser.ts:136-151 | a `@string` entry that binds a name already bound, in the starting table or by an earlier `@string` node of the list, makes the walk throw |
| ResolverLaws.PrefixBindsName | src/lib/parser.ts:132-151 | a name from the starting table or bound by a `@string` node before position i is in the table a completed walk of the first i nodes leaves |
| ResolverLaws.ThrowsOnBoundName | src/lib/parser.ts:136-151 | a `@string` entry binding a name already in the table throws, and the walk ends there whatever follows |
| ResolverLaws.ConcatBindingSeesEarlierFields | src/lib/parser.ts:145-148 | a `@string` concatenation is reduced against the table that holds every earlier field's binding |
| Parsing.ExpandEntry | src/lib/parser.ts:112-116 | the expansion pass keeps the header and the field names, and sends every value through `ExpandText` |
| Parsing.ExpandPass | src/lib/parser.ts:110-117 | the pass maps each entry, keeping the number of entries |
| Parsing.ExpandPassOnlyRewritesBoundTokens | src/lib/parser.ts:110-117 | when no field value is a single bound bare word, the pass changes nothing |
| Parsing.ParseString | src/lib/parser.ts:101-124 | a syntax error gives no entries and leaves the table alone; a resolver throw gives no entries, never a partial list, and the table keeps the bindings made before it; on success the entries are the resolver's, passed through the expansion pass exactly when the `EXPAND_MACROS` bit (value 2) is set |
| Parsing.ExpandPassOnlyWhenRequested | src/lib/parser.ts:110-117 | entries keep their number, headers and field names; a value changes only when the `EXPAND_MACROS` bit (value 2) is set and it is a whole bound bare word, and with that bit set every such value becomes its binding |
| Parsing.RebindingThroughStringEmptiesResult | src/lib/parser.ts:120-123 | a `@string` entry that rebinds a name bound before the call or earlier in the same buffer makes `parseString` return no entries |
| Scenarios.ConcatenatedMacroScenario | test/parser.test.ts:317-329 | `first`, then `second = first # " Second"`, then `title = second` gives "First Second" |
| Scenarios.BareWordBindingScenario | src/lib/parser.ts:143-144 | `@string{b = a}` binds `b` to "a"; a field `b` reduces to "a", and only the expansion pass turns it into `a`'s value |
| Scenarios.RedefinitionScenario | src/lib/parser.ts:22-24 | two `@string` entries that both bind `a` give no entries, but the first binding stays |

## Left out

- The grammar (`generated-parser`) is not part of this model. Tokenising, brace nesting, escapes, numeric literals, type lower-casing and metatype assignment all happen there. Its output is an input to `ParseString`, and its syntax error is the `SyntaxError` alternative.
- The stringifier (`stringifyEntry`, `stringifyEntries`) and its round-trip law are not part of this model. Neither function appears in src/lib/parser.ts.
- Diagnostics are not modelled: `console.error`, the `filename`/`line` parameters and the text of error messages. A throw is a failure value.
- MacroTable.GetMacroNames: returns a set, because the insertion order of `Object.keys` is not modelled.
- Output fields are a map, so the key order of the resulting `fields` object is not modelled. Input fields keep their order as a sequence.
- `Object.entries` visits integer-like keys first. The model visits fields in the order the grammar gives them.
- A JavaScript object cannot hold two fields with the same name, but the input sequence can. For such input the model binds the names one after the other, so the second `@string` binding throws.
- Text.Lower: lower-cases ASCII letters only. `toLowerCase` also folds non-ASCII letters.
- JavaScript prototype properties of the initial `{}` table are not modelled (for example, `lookupMacro('constructor')`). The table is a plain map.
- Null and undefined names or texts are not modelled: Dafny strings cannot be null. So `text || ''` in `defineMacro` is just `text`.
- The guard for a non-array AST in `processAst` is not modelled, because the grammar's output is always a sequence. Nor are entry nodes without a `fields` object.
- Field values of shapes other than string, concatenation or macro reference are not modelled. The value datatype has only those three.
- Parsing.ExpandRequested: treats `options` as an integer and tests the `EXPAND_MACROS` bit (value 2) as `options % 4 >= 2`. Fractional numbers, and the conversion of numbers outside the 32-bit range, are not modelled.
- The AST entry is not mutated in place. Resolution produces fresh entries.

=== FILE: macro_table.dfy ===
/** The parser's macro table (src/lib/parser.ts, class `Parser`): a name to
    text map, threaded through pure functions instead of living in a field. */
module MacroTable {
  import opened Types
  import opened Text

  /** `defineMacro`: the direct API. It refuses an empty name and a name that is
      already a key of the table. The collision check uses the name exactly as
      given, without lower-casing it. On success the only change is the new
      binding. */
  function DefineMacro(t: Table, name: string, text: string): (r: Result<Table>)
    ensures r.Failure? <==> name == "" || name in t
    ensures name == "" ==> r == Failure(EmptyMacroName)
    ensures name != "" && name in t ==> r == Failure(MacroRedefined(name))
    ensures r.Success? ==> r.value.Keys == t.Keys + {name} && r.value[name] == text
    ensures r.Success? ==> Extends(r.value, t)
  {
    if name == "" then Failure(EmptyMacroName)
    else if name in t then Failure(MacroRedefined(name))
    else Success(t[name := text])
  }

  /** `lookupMacro`: nothing for an empty name, otherwise the binding of the
      lower-cased name, if any. */
  function LookupMacro(t: Table, name: string): (r: Option<string>)
    ensures r.Some? <==> name != "" && Lower(name) in t
    ensures r.Some? ==> r.value == t[Lower(name)]
  {
    if name == "" then None
    else if Lower(name) in t then Some(t[Lower(name)])
    else None
  }

  /** `macroExists`: whether the lower-cased name is bound. Unlike
      `lookupMacro` there is no separate test for the empty name. */
  function MacroExists(t: Table, name: string): (r: bool)
    ensures r <==> Lower(name) in t
  {
    Lower(name) in t
  }

  datatype Deletion = Deletion(deleted: bool, table: Table)

  /** `deleteMacro`: removes the binding of the lower-cased name and reports
      whether there was one. */
  function DeleteMacro(t: Table, name: string): (r: Deletion)
    ensures !r.deleted <==> name == "" || Lower(name) !in t
    ensures !r.deleted ==> r.table == t
    ensures r.deleted ==> r.table.Keys == t.Keys - {Lower(name)}
    ensures forall k :: k in r.table ==> k in t && r.table[k] == t[k]
  {
    if name == "" then Deletion(false, t)
    else if Lower(name) !in t then Deletion(false, t)
    else Deletion(true, t - {Lower(name)})
  }

  /** `clearMacros`: afterwards no name is bound and every lookup fails. */
  function ClearMacros(): (r: Table)
    ensures GetMacroNames(r) == {}
    ensures forall name :: LookupMacro(r, name) == None && !MacroExists(r, name)
  {
    map[]
  }

  /** `getMacroNames`, as a set: the order of `Object.keys` is not modelled. */
  function GetMacroNames(t: Table): (r: set<string>)
    ensures forall name :: name in r <==> name in t
  {
    t.Keys
  }

  /** `macroExists` and `lookupMacro` agree on every non-empty name, and both
      ignore the case of the name they are given. */
  lemma ExistsAgreesWithLookup(t: Table, name: string)
    ensures name != "" ==> (MacroExists(t, name) <==> LookupMacro(t, name).Some?)
    ensures MacroExists(t, name) == MacroExists(t, Lower(name))
    ensures LookupMacro(t, name) == LookupMacro(t, Lower(name))
  {
    LowerIdempotent(name);
  }

  /** A name is listed by `getMacroNames` exactly when it is bound; for a
      lower-case name that is exactly when `macroExists` holds. */
  lemma NamesAgreeWithExists(t: Table, name: string)
    requires IsLowerCase(name)
    ensures name in GetMacroNames(t) <==> MacroExists(t, name)
  {
    LowerFixesExactlyLowerCase(name);
  }

  /** A macro defined through the direct API under a lower-case name is found
      by `lookupMacro` and `macroExists`, and no other lookup changes. */
  lemma DefineThenLookup(t: Table, name: string, text: string, other: string)
    requires name != "" && name !in t && IsLowerCase(name)
    ensures DefineMacro(t, name, text).Success?
    ensures LookupMacro(DefineMacro(t, name, text).value, name) == Some(text)
    ensures MacroExists(DefineMacro(t, name, text).value, name)
    ensures Lower(other) != name ==>
              LookupMacro(DefineMacro(t, name, text).value, other) == LookupMacro(t, other)
  {
    LowerFixesExactlyLowerCase(name);
  }

  /** The direct API stores the name with its capitals, while `lookupMacro` and
      `macroExists` lower-case theirs: a name with a capital letter, defined
      through `defineMacro`, is invisible to both. */
  lemma CapitalisedDefinitionIsInvisible(t: Table, name: string, text: string)
    requires name != "" && name !in t && Lower(name) !in t
    requires !IsLowerCase(name)
    ensures DefineMacro(t, name, text).Success?
    ensures !MacroExists(DefineMacro(t, name, text).value, name)
    ensures LookupMacro(DefineMacro(t, name, text).value, name) == None
  {
    LowerFixesExactlyLowerCase(name);
  }

  /** The collision check is case-sensitive: with `journal` bound, defining
      `Journal` succeeds, while defining `journal` again throws. */
  lemma DefineCheckIsCaseSensitive()
    ensures DefineMacro(map["journal" := "J"], "Journal", "K").Success?
    ensures DefineMacro(map["journal" := "J"], "journal", "K")
              == Failure(MacroRedefined("journal"))
  {
  }

  /** After a successful delete the name is gone whatever its case, every other
      lower-cased name keeps its binding, and the name can be defined again. */
  lemma DeleteRemovesOnlyThatMacro(t: Table, name: string, other: string)
    requires DeleteMacro(t, name).deleted
    ensures !MacroExists(DeleteMacro(t, name).table, name)
    ensures LookupMacro(DeleteMacro(t, name).table, name) == None
    ensures Lower(other) != Lower(name) ==>
              LookupMacro(DeleteMacro(t, name).table, other) == LookupMacro(t, other)
              && MacroExists(DeleteMacro(t, name).table, other) == MacroExists(t, other)
    ensures DefineMacro(DeleteMacro(t, name).table, Lower(name), "").Success?
  {
  }

  /** Deleting ignores the case of the name. */
  lemma DeleteIsCaseInsensitive(t: Table, name: string)
    ensures DeleteMacro(t, name) == DeleteMacro(t, Lower(name))
  {
    LowerIdempotent(name);
  }

  /** The scenario of the macro-deletion test: `journal` and `publisher` are
      bound; deleting `journal` keeps `publisher`; deleting `nonexistent`
      fails; deleting `PUBLISHER` removes `publisher`. */
  lemma DeleteScenario()
    ensures var t0 := map["journal" := "Test Journal", "publisher" := "Test Publisher"];
            var d1 := DeleteMacro(t0, "journal");
            var d2 := DeleteMacro(d1.table, "nonexistent");
            var d3 := DeleteMacro(d2.table, "PUBLISHER");
            && d1.deleted && !MacroExists(d1.table, "journal")
            && MacroExists(d1.table, "publisher")
            && !d2.deleted
            && d3.deleted && !MacroExists(d3.table, "publisher")
  {
    var t0 := map["journal" := "Test Journal", "publisher" := "Test Publisher"];
    assert Lower("journal") == "journal";
    assert Lower("publisher") == "publisher";
    assert Lower("PUBLISHER") == "publisher";
    assert Lower("nonexistent") == "nonexistent";
  }
}

=== FILE: parsing.dfy ===
/** `parseString` (src/lib/parser.ts): the grammar's output, or its syntax
    error, resolved against the parser's table, with the optional expansion
    pass. The grammar itself is not modelled: its result is an input. */
module Parsing {
  import opened Types
  import opened Text
  import opened Resolver
  import opened ResolverLaws

  /** What the grammar returns for a buffer: entry nodes (a node may be null),
      or the syntax error it throws. */
  datatype Parsed = Ast(nodes: seq<Option<RawEntry>>) | SyntaxError(message: string)

  /** The entries `parseString` returns and the parser's table afterwards. */
  datatype ParseOutcome = ParseOutcome(entries: seq<Entry>, table: Table)

  /** `options & EXPAND_MACROS` is non-zero, where the `EXPAND_MACROS` bit has
      value 2. Dafny's `%` is Euclidean, so this holds for negative options as
      well. */
  predicate ExpandRequested(options: int) {
    options % 4 >= EXPAND_MACROS
  }

  /** Bit `k` of the two's complement representation of `x`: shifting right
      is division by two rounded down, which Dafny's `/` does. */
  predicate Bit(x: int, k: nat)
    decreases k
  {
    if k == 0 then x % 2 == 1 else Bit(x / 2, k - 1)
  }

  /** The test reads the bit of value 2 and no other. */
  lemma ExpandRequestedIsBitOne(options: int)
    ensures ExpandRequested(options) <==> Bit(options, 1)
    ensures ExpandRequested(options) <==> (options / 2) % 2 == 1
  {
    assert Bit(options, 1) == Bit(options / 2, 0);
  }

  /** The expansion pass over one entry: every field value goes once more
      through `expandMacrosInValue` as a plain string. */
  function ExpandEntry(t: Table, e: Entry): (r: Entry)
    ensures r.key == e.key && r.entryType == e.entryType && r.metatype == e.metatype
    ensures r.fields.Keys == e.fields.Keys
    ensures forall k :: k in e.fields ==> r.fields[k] == ExpandText(t, e.fields[k])
  {
    e.(fields := map k | k in e.fields :: ExpandText(t, e.fields[k]))
  }

  function ExpandPass(t: Table, es: seq<Entry>): (r: seq<Entry>)
    ensures |r| == |es|
    ensures forall i :: 0 <= i < |es| ==> r[i] == ExpandEntry(t, es[i])
  {
    seq(|es|, i requires 0 <= i < |es| => ExpandEntry(t, es[i]))
  }

  /** No field value of `es` is a bare word bound in `t`. */
  predicate NoBoundTokens(t: Table, es: seq<Entry>) {
    forall i, k :: 0 <= i < |es| && k in es[i].fields ==>
      !(IsBareWord(es[i].fields[k]) && Lower(es[i].fields[k]) in t)
  }

  /** The expansion pass rewrites only field values that are a single bound bare
      word: with none of those it changes nothing. */
  lemma ExpandPassOnlyRewritesBoundTokens(t: Table, es: seq<Entry>)
    ensures NoBoundTokens(t, es) ==> ExpandPass(t, es) == es
  {
    if NoBoundTokens(t, es) {
      forall i | 0 <= i < |es| ensures ExpandEntry(t, es[i]) == es[i] {
        assert ExpandEntry(t, es[i]).fields == es[i].fields;
      }
    }
  }

  /** `parseString`. Any throw, from the grammar or from a `@string` entry that
      rebinds a name, yields no entries at all; bindings made before a throw in
      the resolver stay in the table. */
  function ParseString(t: Table, parsed: Parsed, options: int): (r: ParseOutcome)
    ensures parsed.SyntaxError? ==> r == ParseOutcome([], t)
    ensures Extends(r.table, t)
    ensures parsed.Ast? ==> r.table == ProcessAst(t, parsed.nodes).table
    ensures parsed.Ast? && ProcessAst(t, parsed.nodes).ProcessFailed? ==> r.entries == []
    ensures r.entries == [] || (parsed.Ast? && |r.entries| == |NonNull(parsed.nodes)|)
    ensures parsed.Ast? && ProcessAst(t, parsed.nodes).Processed? && !ExpandRequested(options) ==>
              r.entries == ProcessAst(t, parsed.nodes).entries
    ensures parsed.Ast? && ProcessAst(t, parsed.nodes).Processed? && ExpandRequested(options) ==>
              r.entries == ExpandPass(ProcessAst(t, parsed.nodes).table,
                                      ProcessAst(t, parsed.nodes).entries)
  {
    match parsed
    case SyntaxError(_) => ParseOutcome([], t)
    case Ast(nodes) =>
      match ProcessAst(t, nodes)
      case ProcessFailed(_, t1) => ParseOutcome([], t1)
      case Processed(es, t1) =>
        ParseOutcome(if ExpandRequested(options) then ExpandPass(t1, es) else es, t1)
  }

  /** Whether or not the pass runs, the entries keep their number, headers and
      field names. A value changes only when the `EXPAND_MACROS` bit (value 2)
      of the options is set and the value is one whole bare word bound in the
      final table; with the bit set, every such value is replaced by its
      binding. */
  lemma ExpandPassOnlyWhenRequested(t: Table, nodes: seq<Option<RawEntry>>, options: int)
    requires ProcessAst(t, nodes).Processed?
    ensures var es := ProcessAst(t, nodes).entries;
            var r := ParseString(t, Ast(nodes), options);
            && |r.entries| == |es|
            && forall i :: 0 <= i < |es| ==>
                 && r.entries[i].key == es[i].key
                 && r.entries[i].entryType == es[i].entryType
                 && r.entries[i].metatype == es[i].metatype
                 && r.entries[i].fields.Keys == es[i].fields.Keys
    ensures var es := ProcessAst(t, nodes).entries;
            var r := ParseString(t, Ast(nodes), options);
            forall i, k :: 0 <= i < |es| && k in es[i].fields ==>
              && (r.entries[i].fields[k] != es[i].fields[k] ==>
                    && ExpandRequested(options)
                    && IsBareWord(es[i].fields[k])
                    && Lower(es[i].fields[k]) in r.table
                    && r.entries[i].fields[k] == r.table[Lower(es[i].fields[k])])
              && (ExpandRequested(options) && IsBareWord(es[i].fields[k])
                  && Lower(es[i].fields[k]) in r.table ==>
                    r.entries[i].fields[k] == r.table[Lower(es[i].fields[k])])
  {
  }

  /** A `@string` entry that binds a name already bound, in the table before the
      call or by an earlier `@string` node of the same buffer, makes
      `parseString` return no entries. */
  lemma RebindingThroughStringEmptiesResult(t: Table, nodes: seq<Option<RawEntry>>,
                                            options: int, i: int, j: int)
    requires 0 <= i < |nodes| && nodes[i].Some? && nodes[i].value.metatype == MacroDef
    requires 0 <= j < |nodes[i].value.fields|
    requires nodes[i].value.fields[j].0 in t || BoundBefore(nodes, i, nodes[i].value.fields[j].0)
    ensures ParseString(t, Ast(nodes), options).entries == []
  {
    RebindingThrows(t, nodes, i, j);
  }
}

=== FILE: resolver.dfy ===
/** The AST resolver of src/lib/parser.ts: the two value reducers
    (`expandMacrosInValue` and the inline field reducer of `processAst`), the
    binding of macro-definition entries, and `processAst` itself. */
module Resolver {
  import opened Types
  import opened Text
  import opened MacroTable

  // ---------------------------------------------------------------------------
  // expandMacrosInValue

  /** A plain string through `expandMacrosInValue`: a whole bare word bound
      under its lower-cased form becomes its binding; anything else, the empty
      string included, is returned unchanged. */
  function ExpandText(t: Table, s: string): (r: string)
    ensures r != s ==> IsBareWord(s) && Lower(s) in t && r == t[Lower(s)]
    ensures IsBareWord(s) && Lower(s) in t ==> r == t[Lower(s)]
    ensures s == "" ==> r == ""
  {
    if IsBareWord(s) && Lower(s) in t then t[Lower(s)] else s
  }

  /** `expandMacrosInValue`: a concatenation gives its parts' reductions in
      order; a macro reference gives the binding of its lower-cased name, even
      an empty one, or else that lower-cased name. */
  function Expand(t: Table, v: Value): (r: string)
    ensures v.Literal? ==> r == ExpandText(t, v.text)
    ensures v.MacroRef? && Lower(v.name) in t ==> r == t[Lower(v.name)]
    ensures v.MacroRef? && Lower(v.name) !in t ==> r == Lower(v.name)
    decreases v
  {
    match v
    case Literal(s) => ExpandText(t, s)
    case MacroRef(n) => if Lower(n) in t then t[Lower(n)] else Lower(n)
    case Concat(ps) => Join(seq(|ps|, i requires 0 <= i < |ps| => Expand(t, ps[i])))
  }

  lemma ExpandEmptyConcat(t: Table)
    ensures Expand(t, Concat([])) == ""
  {
  }

  lemma ExpandSingletonConcat(t: Table, v: Value)
    ensures Expand(t, Concat([v])) == Expand(t, v)
  {
    assert seq(1, i requires 0 <= i < 1 => Expand(t, [v][i])) == [Expand(t, v)];
  }

  /** Concatenation reduces part by part, in order: splitting the parts of a
      concatenation splits its reduction at the same place. */
  lemma ExpandConcatAppend(t: Table, a: seq<Value>, b: seq<Value>)
    ensures Expand(t, Concat(a + b)) == Expand(t, Concat(a)) + Expand(t, Concat(b))
  {
    var ma := seq(|a|, i requires 0 <= i < |a| => Expand(t, a[i]));
    var mb := seq(|b|, i requires 0 <= i < |b| => Expand(t, b[i]));
    var ab := a + b;
    var mab := seq(|ab|, i requires 0 <= i < |ab| => Expand(t, ab[i]));
    assert mab == ma + mb;
    JoinAppend(ma, mb);
  }

  // ---------------------------------------------------------------------------
  // The inline field reducer of processAst

  /** `x || name` for a lookup result `x`: an undefined or empty result falls
      back to the name as written. */
  function OrName(found: Option<string>, name: string): (r: string)
    ensures r == name || (found.Some? && r == found.value && r != "")
    ensures found.Some? && found.value != "" ==> r == found.value
  {
    if found.Some? && found.value != "" then found.value else name
  }

  /** The text JavaScript gives an AST array when it is joined into a string:
      its elements separated by commas, nested arrays flattened the same way. */
  function ArrayText(v: Value): (r: string)
    ensures v.Literal? ==> r == v.text
    ensures v.MacroRef? ==> r == JoinWith(",", ["macro", v.name])
    ensures v.Concat? ==>
              r == JoinWith(",", ["concat"] + seq(|v.parts|, i requires 0 <= i < |v.parts| => ArrayText(v.parts[i])))
    decreases v
  {
    match v
    case Literal(s) => s
    case MacroRef(n) =>
      JoinWithCons(",", "macro", [n]);
      "macro," + n
    case Concat(ps) =>
      var texts := seq(|ps|, i requires 0 <= i < |ps| => ArrayText(ps[i]));
      var commas := seq(|ps|, i requires 0 <= i < |ps| => "," + ArrayText(ps[i]));
      JoinWithCons(",", "concat", texts);
      assert seq(|texts|, i requires 0 <= i < |texts| => "," + texts[i]) == commas;
      "concat" + Join(commas)
  }

  /** One part of a concatenation in a field: a string is kept as it is, a
      macro reference is looked up, and a nested concatenation is not reduced
      but coerced to its array text. */
  function ReducePart(t: Table, p: Value): (r: string)
    ensures p.Literal? ==> r == p.text
    ensures p.MacroRef? ==> r == OrName(LookupMacro(t, p.name), p.name)
    ensures p.Concat? ==> r == ArrayText(p)
  {
    match p
    case Literal(s) => s
    case MacroRef(n) => OrName(LookupMacro(t, n), n)
    case Concat(_) => ArrayText(p)
  }

  /** The value of one field of an entry. */
  function ReduceField(t: Table, v: Value): (r: string)
    ensures v.Literal? ==> r == v.text
    ensures v.MacroRef? ==> r == OrName(LookupMacro(t, v.name), v.name)
  {
    match v
    case Literal(s) => s
    case MacroRef(n) => OrName(LookupMacro(t, n), n)
    case Concat(ps) => Join(seq(|ps|, i requires 0 <= i < |ps| => ReducePart(t, ps[i])))
  }

  /** A field concatenation with no parts gives the empty string. */
  lemma ReduceFieldEmptyConcat(t: Table)
    ensures ReduceField(t, Concat([])) == ""
  {
  }

  /** A one-part field concatenation gives that part's reduction. */
  lemma ReduceFieldSingletonConcat(t: Table, p: Value)
    ensures ReduceField(t, Concat([p])) == ReducePart(t, p)
  {
    assert seq(1, i requires 0 <= i < 1 => ReducePart(t, [p][i])) == [ReducePart(t, p)];
  }

  /** A field concatenation reduces part by part, in order: splitting its parts
      splits the result at the same place. */
  lemma ReduceFieldConcatAppend(t: Table, a: seq<Value>, b: seq<Value>)
    ensures ReduceField(t, Concat(a + b)) == ReduceField(t, Concat(a)) + ReduceField(t, Concat(b))
  {
    var ma := seq(|a|, i requires 0 <= i < |a| => ReducePart(t, a[i]));
    var mb := seq(|b|, i requires 0 <= i < |b| => ReducePart(t, b[i]));
    var ab := a + b;
    var mab := seq(|ab|, i requires 0 <= i < |ab| => ReducePart(t, ab[i]));
    assert mab == ma + mb;
    JoinAppend(ma, mb);
  }

  /** The conditions under which the two reducers agree on a part: no nested
      concatenation, no literal that is a bound bare word, and macro names that
      are lower-case, non-empty and not bound to the empty string. */
  predicate PlainPart(t: Table, p: Value) {
    match p
    case Literal(s) => !(IsBareWord(s) && Lower(s) in t)
    case MacroRef(n) => n != "" && IsLowerCase(n) && (n in t ==> t[n] != "")
    case Concat(_) => false
  }

  predicate PlainValue(t: Table, v: Value) {
    match v
    case Concat(ps) => forall i :: 0 <= i < |ps| ==> PlainPart(t, ps[i])
    case _ => PlainPart(t, v)
  }

  lemma PartsAgree(t: Table, p: Value)
    requires PlainPart(t, p)
    ensures ReducePart(t, p) == Expand(t, p)
  {
    if p.MacroRef? {
      LowerFixesExactlyLowerCase(p.name);
    }
  }

  /** On plain values the field reducer and `expandMacrosInValue` give the same
      string. */
  lemma ReducersAgree(t: Table, v: Value)
    requires PlainValue(t, v)
    ensures ReduceField(t, v) == Expand(t, v)
  {
    match v
    case Concat(ps) =>
      forall i | 0 <= i < |ps|
        ensures ReducePart(t, ps[i]) == Expand(t, ps[i])
      {
        PartsAgree(t, ps[i]);
      }
      assert seq(|ps|, i requires 0 <= i < |ps| => ReducePart(t, ps[i]))
          == seq(|ps|, i requires 0 <= i < |ps| => Expand(t, ps[i]));
    case _ =>
      PartsAgree(t, v);
  }

  /** The reducers part ways on a macro bound to the empty string: `||` makes
      the field reducer fall back to the name, `expandMacrosInValue` does not. */
  lemma ReducersDifferOnEmptyMacro()
    ensures Expand(map["x" := ""], MacroRef("x")) == ""
    ensures ReduceField(map["x" := ""], MacroRef("x")) == "x"
  {
    assert Lower("x") == "x";
  }

  /** ... and on a literal that happens to be a bound bare word, which only
      `expandMacrosInValue` replaces. */
  lemma ReducersDifferOnBoundLiteral()
    ensures Expand(map["x" := "X"], Literal("x")) == "X"
    ensures ReduceField(map["x" := "X"], Literal("x")) == "x"
  {
    assert Lower("x") == "x";
    assert IsBareWordChar('x');
  }

  /** A concatenation nested inside a field's concatenation is not resolved:
      its macro part survives as the text "macro,...". */
  lemma NestedConcatIsNotResolved()
    ensures ReduceField(map["j" := "J"], Concat([Concat([MacroRef("j")])])) == "concat,macro,j"
  {
    var inner := Concat([MacroRef("j")]);
    var commas := seq(1, i requires 0 <= i < 1 => "," + ArrayText([MacroRef("j")][i]));
    assert commas[0] == "," + "macro," + "j";
    assert "," + "macro," + "j" == ",macro,j";
    assert commas == [",macro,j"];
    assert ArrayText(inner) == "concat,macro,j";
    assert seq(1, i requires 0 <= i < 1 => ReducePart(map["j" := "J"], [inner][i]))
        == ["concat,macro,j"];
  }

  // ---------------------------------------------------------------------------
  // Fields of an entry

  function FieldNames(fs: seq<(string, Value)>): set<string> {
    set i | 0 <= i < |fs| :: Lower(fs[i].0)
  }

  /** Field `i` is the last one whose name lower-cases to its own. */
  predicate LastOfName(fs: seq<(string, Value)>, i: int)
    requires 0 <= i < |fs|
  {
    forall j :: i < j < |fs| ==> Lower(fs[j].0) != Lower(fs[i].0)
  }

  /** The fields of an entry, reduced against one table, under lower-cased
      names; when two names lower-case alike the later field wins. */
  function ReduceFields(t: Table, fs: seq<(string, Value)>): (r: map<string, string>)
    ensures r.Keys == FieldNames(fs)
    ensures forall i :: 0 <= i < |fs| && LastOfName(fs, i) ==>
              r[Lower(fs[i].0)] == ReduceField(t, fs[i].1)
    decreases |fs|
  {
    if fs == [] then map[]
    else
      var init := fs[..|fs| - 1];
      var last := fs[|fs| - 1];
      var r0 := ReduceFields(t, init);
      var r := r0[Lower(last.0) := ReduceField(t, last.1)];
      FieldNamesSnoc(fs);
      LastOfNameSnoc(t, fs, init, r0, r);
      r
  }

  /** Writing the last field over the map of the earlier ones keeps the value
      of every field that is the last of its name. */
  lemma LastOfNameSnoc(t: Table, fs: seq<(string, Value)>, init: seq<(string, Value)>,
                       r0: map<string, string>, r: map<string, string>)
    requires fs != [] && init == fs[..|fs| - 1]
    requires r0.Keys == FieldNames(init)
    requires forall i :: 0 <= i < |init| && LastOfName(init, i) ==>
               r0[Lower(init[i].0)] == ReduceField(t, init[i].1)
    requires r == r0[Lower(fs[|fs| - 1].0) := ReduceField(t, fs[|fs| - 1].1)]
    ensures forall i :: 0 <= i < |fs| && LastOfName(fs, i) ==>
              r[Lower(fs[i].0)] == ReduceField(t, fs[i].1)
  {
    forall i | 0 <= i < |fs| && LastOfName(fs, i)
      ensures r[Lower(fs[i].0)] == ReduceField(t, fs[i].1)
    {
      if i < |fs| - 1 {
        assert init[i] == fs[i];
        assert Lower(fs[|fs| - 1].0) != Lower(fs[i].0);
        assert LastOfName(init, i) by {
          forall j | i < j < |init| ensures Lower(init[j].0) != Lower(init[i].0) {
            assert init[j] == fs[j];
          }
        }
      }
    }
  }

  lemma FieldNamesSnoc(fs: seq<(string, Value)>)
    requires fs != []
    ensures FieldNames(fs) == FieldNames(fs[..|fs| - 1]) + {Lower(fs[|fs| - 1].0)}
  {
    var init := fs[..|fs| - 1];
    forall k | k in FieldNames(fs) ensures k in FieldNames(init) + {Lower(fs[|fs| - 1].0)} {
      var i :| 0 <= i < |fs| && k == Lower(fs[i].0);
      if i < |fs| - 1 { assert k == Lower(init[i].0); }
    }
    forall k | k in FieldNames(init) ensures k in FieldNames(fs) {
      var i :| 0 <= i < |init| && k == Lower(init[i].0);
      assert k == Lower(fs[i].0);
    }
  }

  /** An entry with its fields reduced; key, type and metatype pass through. */
  function Resolve(t: Table, e: RawEntry): (r: Entry)
    ensures r.key == e.key && r.entryType == e.entryType && r.metatype == e.metatype
    ensures r.fields.Keys == FieldNames(e.fields)
    ensures forall i :: 0 <= i < |e.fields| && LastOfName(e.fields, i) ==>
              r.fields[Lower(e.fields[i].0)] == ReduceField(t, e.fields[i].1)
  {
    Entry(e.key, e.entryType, e.metatype, ReduceFields(t, e.fields))
  }

  // ---------------------------------------------------------------------------
  // Macro-definition entries

  /** The text a `@string` field binds: a string verbatim, a lone bare word
      as the referenced name itself (not its value), a concatenation as its
      `expandMacrosInValue` reduction against the current table. */
  function BindingText(t: Table, v: Value): (r: string)
    ensures v.Literal? ==> r == v.text
    ensures v.MacroRef? ==> r == v.name
    ensures v.Concat? ==> r == Expand(t, v)
  {
    match v
    case Literal(s) => s
    case MacroRef(n) => n
    case Concat(_) => Expand(t, v)
  }

  /** The outcome of binding a `@string` entry's fields; a throw keeps the
      bindings made before it. */
  datatype Bindings = Bound(table: Table) | BindFailed(error: MacroError, table: Table)

  /** Every name is non-empty, unbound in `t`, and not repeated. */
  predicate FreshNames(t: Table, fs: seq<(string, Value)>) {
    forall i :: 0 <= i < |fs| ==>
      fs[i].0 != "" && fs[i].0 !in t && forall j :: 0 <= j < i ==> fs[j].0 != fs[i].0
  }

  /** The fields of a `@string` entry, bound one after another through
      `defineMacro`. Binding succeeds exactly when every name is fresh; it
      never loses a binding, and on success it binds every name and nothing
      else. */
  function BindMacroDefs(t: Table, fs: seq<(string, Value)>): (r: Bindings)
    ensures r.Bound? <==> FreshNames(t, fs)
    ensures Extends(r.table, t)
    ensures r.Bound? ==> r.table.Keys == t.Keys + (set i | 0 <= i < |fs| :: fs[i].0)
    ensures r.Bound? ==> forall i :: 0 <= i < |fs| && !fs[i].1.Concat? ==>
              r.table[fs[i].0] == BindingText(t, fs[i].1)
    decreases |fs|
  {
    if fs == [] then Bound(t)
    else
      match DefineMacro(t, fs[0].0, BindingText(t, fs[0].1))
      case Failure(err) => BindFailed(err, t)
      case Success(t1) =>
        var r := BindMacroDefs(t1, fs[1..]);
        FreshNamesCons(t, fs, t1);
        NamesCons(fs);
        assert r.Bound? ==> forall i :: 0 <= i < |fs| && !fs[i].1.Concat? ==>
                 r.table[fs[i].0] == BindingText(t, fs[i].1) by {
          if r.Bound? {
            forall i | 0 <= i < |fs| && !fs[i].1.Concat?
              ensures r.table[fs[i].0] == BindingText(t, fs[i].1)
            {
              if i > 0 { assert fs[i] == fs[1..][i - 1]; }
            }
          }
        }
        r
  }

  /** Binding the first name leaves the rest to be checked against the grown
      table. */
  lemma FreshNamesCons(t: Table, fs: seq<(string, Value)>, t1: Table)
    requires fs != [] && fs[0].0 != "" && fs[0].0 !in t
    requires t1.Keys == t.Keys + {fs[0].0}
    ensures FreshNames(t, fs) <==> FreshNames(t1, fs[1..])
  {
    if FreshNames(t1, fs[1..]) {
      forall i | 0 <= i < |fs|
        ensures fs[i].0 != "" && fs[i].0 !in t
        ensures forall j :: 0 <= j < i ==> fs[j].0 != fs[i].0
      {
        if i > 0 {
          assert fs[i] == fs[1..][i - 1];
          forall j | 0 <= j < i ensures fs[j].0 != fs[i].0 {
            if j > 0 { assert fs[j] == fs[1..][j - 1]; }
          }
        }
      }
    }
    if FreshNames(t, fs) {
      forall i | 0 <= i < |fs[1..]|
        ensures fs[1..][i].0 != "" && fs[1..][i].0 !in t1
        ensures forall j :: 0 <= j < i ==> fs[1..][j].0 != fs[1..][i].0
      {
        assert fs[1..][i] == fs[i + 1];
        assert fs[0].0 != fs[i + 1].0;
        forall j | 0 <= j < i ensures fs[1..][j].0 != fs[1..][i].0 {
          assert fs[1..][j] == fs[j + 1];
        }
      }
    }
  }

  lemma NamesCons(fs: seq<(string, Value)>)
    requires fs != []
    ensures (set i | 0 <= i < |fs| :: fs[i].0)
         == {fs[0].0} + (set i | 0 <= i < |fs[1..]| :: fs[1..][i].0)
  {
    var all := set i | 0 <= i < |fs| :: fs[i].0;
    var rest := set i | 0 <= i < |fs[1..]| :: fs[1..][i].0;
    forall k | k in all ensures k in {fs[0].0} + rest {
      var i :| 0 <= i < |fs| && k == fs[i].0;
      if i > 0 { assert k == fs[1..][i - 1].0; }
    }
    forall k | k in rest ensures k in all {
      var i :| 0 <= i < |fs[1..]| && k == fs[1..][i].0;
      assert k == fs[i + 1].0;
    }
  }

  /** A field whose name and every earlier name are fresh is bound, whether
      or not a later field throws: `defineMacro` writes into the table at
      once, so the failure value keeps it. */
  lemma {:induction false} BindingKeepsEarlierFields(t: Table, fs: seq<(string, Value)>, i: int)
    requires 0 <= i < |fs| && FreshNames(t, fs[..i + 1])
    ensures fs[i].0 in BindMacroDefs(t, fs).table
    ensures !fs[i].1.Concat? ==> BindMacroDefs(t, fs).table[fs[i].0] == BindingText(t, fs[i].1)
    decreases i
  {
    assert fs[..i + 1][0] == fs[0];
    var d := DefineMacro(t, fs[0].0, BindingText(t, fs[0].1));
    assert d.Success?;
    var t1 := d.value;
    assert BindMacroDefs(t, fs) == BindMacroDefs(t1, fs[1..]);
    if i > 0 {
      FreshNamesCons(t, fs[..i + 1], t1);
      assert fs[..i + 1][1..] == fs[1..][..i];
      BindingKeepsEarlierFields(t1, fs[1..], i - 1);
      assert fs[1..][i - 1] == fs[i];
    }
  }

  /** Binding `a + b` binds `a`, then `b` against the table `a` left; a throw in
      `a` ends the entry, so no field of `b` is bound. */
  lemma {:induction false} BindMacroDefsAppend(t: Table, a: seq<(string, Value)>,
                                               b: seq<(string, Value)>)
    ensures var ra := BindMacroDefs(t, a);
            BindMacroDefs(t, a + b) == if ra.BindFailed? then ra else BindMacroDefs(ra.table, b)
    decreases |a|
  {
    if a == [] {
      assert a + b == b;
    } else {
      assert (a + b)[0] == a[0];
      assert (a + b)[1..] == a[1..] + b;
      match DefineMacro(t, a[0].0, BindingText(t, a[0].1))
      case Failure(_) =>
      case Success(t1) =>
        BindMacroDefsAppend(t1, a[1..], b);
    }
  }

  // ---------------------------------------------------------------------------
  // processAst

  /** The outcome of resolving entries; a throw keeps the bindings made before
      it, since the table is updated in place. */
  datatype Processed =
    | Processed(entries: seq<Entry>, table: Table)
    | ProcessFailed(error: MacroError, table: Table)

  /** The entry nodes that are not null, in order. */
  function NonNull(ast: seq<Option<RawEntry>>): (r: seq<RawEntry>)
    ensures |r| <= |ast|
  {
    if ast == [] then []
    else match ast[0]
      case None => NonNull(ast[1..])
      case Some(e) => [e] + NonNull(ast[1..])
  }

  predicate NoMacroDefs(ast: seq<Option<RawEntry>>) {
    forall i :: 0 <= i < |ast| && ast[i].Some? ==> ast[i].value.metatype != MacroDef
  }

  /** One entry node: a `@string` entry first binds its fields, then every entry
      has its fields reduced against the table as it now stands. */
  function ProcessEntry(t: Table, e: RawEntry): (r: Processed)
    ensures r.Processed? ==> r.entries == [Resolve(r.table, e)]
    ensures e.metatype != MacroDef ==> r == Processed([Resolve(t, e)], t)
    ensures e.metatype == MacroDef ==> (r.Processed? <==> FreshNames(t, e.fields))
    ensures e.metatype == MacroDef ==> r.table == BindMacroDefs(t, e.fields).table
    ensures Extends(r.table, t)
  {
    if e.metatype == MacroDef then
      match BindMacroDefs(t, e.fields)
      case BindFailed(err, t1) => ProcessFailed(err, t1)
      case Bound(t1) => Processed([Resolve(t1, e)], t1)
    else
      Processed([Resolve(t, e)], t)
  }

  /** `entries` are `raws` resolved one for one: same number, same order,
      same headers, and field names lower-cased. */
  predicate Mirrors(entries: seq<Entry>, raws: seq<RawEntry>) {
    && |entries| == |raws|
    && forall i :: 0 <= i < |entries| ==>
         && entries[i].key == raws[i].key
         && entries[i].entryType == raws[i].entryType
         && entries[i].metatype == raws[i].metatype
         && entries[i].fields.Keys == FieldNames(raws[i].fields)
  }

  lemma MirrorsCons(x: Entry, e: RawEntry, rest: seq<Entry>, raws: seq<RawEntry>)
    requires Mirrors([x], [e]) && Mirrors(rest, raws)
    ensures Mirrors([x] + rest, [e] + raws)
  {
  }

  lemma NoMacroDefsTail(ast: seq<Option<RawEntry>>)
    requires ast != []
    ensures NoMacroDefs(ast) ==> NoMacroDefs(ast[1..])
  {
    if NoMacroDefs(ast) {
      forall i | 0 <= i < |ast[1..]| && ast[1..][i].Some?
        ensures ast[1..][i].value.metatype != MacroDef
      {
        assert ast[1..][i] == ast[i + 1];
      }
    }
  }

  /** `processAst`: the non-null nodes, resolved in source order against a
      table that grows as `@string` entries are met; the first throw ends the
      walk. */
  function ProcessAst(t: Table, ast: seq<Option<RawEntry>>): (r: Processed)
    ensures r.Processed? ==> Mirrors(r.entries, NonNull(ast))
    ensures Extends(r.table, t)
    ensures NoMacroDefs(ast) ==> r.Processed? && r.table == t
  {
    WalkShape(t, ast);
    Walk(ProcessEntry, t, ast)
  }

  /** The loop of `processAst` over the nodes, with `step` applied to each
      entry node and the table threaded through. */
  function Walk(step: (Table, RawEntry) -> Processed, t: Table, ast: seq<Option<RawEntry>>): Processed
    decreases |ast|
  {
    if ast == [] then Processed([], t)
    else
      match ast[0]
      case None => Walk(step, t, ast[1..])
      case Some(e) =>
        match step(t, e)
        case ProcessFailed(err, t1) => ProcessFailed(err, t1)
        case Processed(es, t1) =>
          match Walk(step, t1, ast[1..])
          case ProcessFailed(err, t2) => ProcessFailed(err, t2)
          case Processed(rest, t2) => Processed(es + rest, t2)
  }

  lemma {:induction false} WalkShape(t: Table, ast: seq<Option<RawEntry>>)
    ensures Walk(ProcessEntry, t, ast).Processed? ==> Mirrors(Walk(ProcessEntry, t, ast).entries, NonNull(ast))
    ensures Extends(Walk(ProcessEntry, t, ast).table, t)
    ensures NoMacroDefs(ast) ==> Walk(ProcessEntry, t, ast).Processed? && Walk(ProcessEntry, t, ast).table == t
    decreases |ast|
  {
    if ast != [] {
      NoMacroDefsTail(ast);
      match ast[0]
      case None =>
        WalkShape(t, ast[1..]);
      case Some(e) =>
        match ProcessEntry(t, e)
        case ProcessFailed(_, _) =>
        case Processed(es, t1) =>
          WalkShape(t1, ast[1..]);
          if Walk(ProcessEntry, t1, ast[1..]).Processed? {
            MirrorsCons(es[0], e, Walk(ProcessEntry, t1, ast[1..]).entries, NonNull(ast[1..]));
          }
    }
  }
}

=== FILE: resolver_laws.dfy ===
/** Laws of the resolver that relate several calls. */
module ResolverLaws {
  import opened Types
  import opened MacroTable
  import opened Resolver

  /** The result of resolving `rest` after entries `es` were produced. */
  function After(es: seq<Entry>, rest: Processed): (r: Processed)
    ensures r.table == rest.table
    ensures rest.Processed? <==> r.Processed?
    ensures r.Processed? ==> r.entries == es + rest.entries
  {
    match rest
    case Processed(more, t2) => Processed(es + more, t2)
    case ProcessFailed(err, t2) => ProcessFailed(err, t2)
  }

  /** Entries are resolved in source order: resolving `a + b` is resolving
      `a`, then `b` against the table `a` left behind, so later entries see
      every binding made by earlier ones; a throw in `a` ends the walk. */
  lemma ProcessAstAppend(t: Table, a: seq<Option<RawEntry>>, b: seq<Option<RawEntry>>)
    ensures var ra := ProcessAst(t, a);
            ProcessAst(t, a + b)
              == if ra.ProcessFailed? then ra else After(ra.entries, ProcessAst(ra.table, b))
  {
    WalkAppend(ProcessEntry, t, a, b);
  }

  /** The composition law on the loop itself. */
  lemma {:induction false} WalkAppend(step: (Table, RawEntry) -> Processed, t: Table,
                                      a: seq<Option<RawEntry>>, b: seq<Option<RawEntry>>)
    ensures var ra := Walk(step, t, a);
            Walk(step, t, a + b) == if ra.ProcessFailed? then ra else After(ra.entries, Walk(step, ra.table, b))
    decreases |a|
  {
    if a == [] {
      assert a + b == b;
      var rb := Walk(step, t, b);
      if rb.Processed? { assert [] + rb.entries == rb.entries; }
    } else {
      assert (a + b)[0] == a[0];
      assert (a + b)[1..] == a[1..] + b;
      match a[0]
      case None =>
        WalkAppend(step, t, a[1..], b);
      case Some(e) =>
        match step(t, e)
        case ProcessFailed(_, _) =>
        case Processed(es, t1) =>
          WalkAppend(step, t1, a[1..], b);
          var ra1 := Walk(step, t1, a[1..]);
          if ra1.Processed? {
            var rb := Walk(step, ra1.table, b);
            if rb.Processed? {
              assert es + (ra1.entries + rb.entries) == (es + ra1.entries) + rb.entries;
            }
          }
    }
  }

  /** A null node is skipped without touching the table. */
  lemma ProcessAstSkipsNull(t: Table, rest: seq<Option<RawEntry>>)
    ensures ProcessAst(t, [None] + rest) == ProcessAst(t, rest)
  {
    assert ([None] + rest)[1..] == rest;
  }

  /** The first entry is processed against the table as it stands, and the rest
      against the table it leaves behind: its resolved entry comes first, and a
      `@string` entry's bindings are visible to everything after it. */
  lemma ProcessAstCons(t: Table, e: RawEntry, rest: seq<Option<RawEntry>>)
    ensures var pe := ProcessEntry(t, e);
            ProcessAst(t, [Some(e)] + rest)
              == if pe.ProcessFailed? then pe else After(pe.entries, ProcessAst(pe.table, rest))
  {
    assert ([Some(e)] + rest)[0] == Some(e);
    assert ([Some(e)] + rest)[1..] == rest;
  }

  /** A list of one entry node gives what processing that entry gives. */
  lemma ProcessAstSingle(t: Table, e: RawEntry)
    ensures ProcessAst(t, [Some(e)]) == ProcessEntry(t, e)
  {
    ProcessAstCons(t, e, []);
    assert [Some(e)] + [] == [Some(e)];
    var pe := ProcessEntry(t, e);
    if pe.Processed? {
      assert ProcessAst(pe.table, []) == Processed([], pe.table);
      assert pe.entries + [] == pe.entries;
    }
  }

  /** Some `@string` node among the first `i` binds `name`. */
  predicate BoundBefore(ast: seq<Option<RawEntry>>, i: int, name: string)
    requires 0 <= i <= |ast|
  {
    exists k, j :: 0 <= k < i && ast[k].Some? && ast[k].value.metatype == MacroDef
                   && 0 <= j < |ast[k].value.fields| && ast[k].value.fields[j].0 == name
  }

  /** A walk that completes leaves every name bound by its `@string` nodes in
      the table. */
  lemma {:induction false} ProcessAstBindsNames(t: Table, ast: seq<Option<RawEntry>>, name: string)
    requires ProcessAst(t, ast).Processed?
    requires BoundBefore(ast, |ast|, name)
    ensures name in ProcessAst(t, ast).table
    decreases |ast|
  {
    var k, j :| 0 <= k < |ast| && ast[k].Some? && ast[k].value.metatype == MacroDef
                && 0 <= j < |ast[k].value.fields| && ast[k].value.fields[j].0 == name;
    var rest := ast[1..];
    if k > 0 {
      assert rest[k - 1] == ast[k];
      assert BoundBefore(rest, |rest|, name);
    }
    if ast[0].None? {
      NullStep(t, ast);
      ProcessAstBindsNames(t, rest, name);
    } else {
      var e := ast[0].value;
      EntryStep(t, ast);
      if k == 0 {
        EntryBindsItsNames(t, e, j);
      } else {
        ProcessAstBindsNames(ProcessEntry(t, e).table, rest, name);
      }
    }
  }

  lemma NullStep(t: Table, ast: seq<Option<RawEntry>>)
    requires ast != [] && ast[0].None?
    ensures ProcessAst(t, ast) == ProcessAst(t, ast[1..])
  {
  }

  /** A completed walk whose first node is an entry: that entry completed, and
      the rest completed from the table it left, ending in the same table. */
  lemma EntryStep(t: Table, ast: seq<Option<RawEntry>>)
    requires ast != [] && ast[0].Some? && ProcessAst(t, ast).Processed?
    ensures ProcessEntry(t, ast[0].value).Processed?
    ensures Extends(ProcessAst(t, ast).table, ProcessEntry(t, ast[0].value).table)
    ensures ProcessAst(ProcessEntry(t, ast[0].value).table, ast[1..]).Processed?
    ensures ProcessAst(t, ast).table == ProcessAst(ProcessEntry(t, ast[0].value).table, ast[1..]).table
  {
    WalkShape(ProcessEntry(t, ast[0].value).table, ast[1..]);
  }

  /** A `@string` entry that is processed without a throw binds each of its
      field names. */
  lemma EntryBindsItsNames(t: Table, e: RawEntry, j: int)
    requires e.metatype == MacroDef && 0 <= j < |e.fields|
    requires ProcessEntry(t, e).Processed?
    ensures e.fields[j].0 in ProcessEntry(t, e).table
  {
    var b := BindMacroDefs(t, e.fields);
    assert b.Bound?;
    assert e.fields[j].0 in (set i | 0 <= i < |e.fields| :: e.fields[i].0);
  }

  /** Once a name is bound, in the starting table or by an earlier `@string`
      node of the same list, a `@string` entry that binds it again makes the
      walk throw. */
  lemma RebindingThrows(t: Table, ast: seq<Option<RawEntry>>, i: int, j: int)
    requires 0 <= i < |ast| && ast[i].Some? && ast[i].value.metatype == MacroDef
    requires 0 <= j < |ast[i].value.fields|
    requires ast[i].value.fields[j].0 in t || BoundBefore(ast, i, ast[i].value.fields[j].0)
    ensures ProcessAst(t, ast).ProcessFailed?
  {
    var name := ast[i].value.fields[j].0;
    var pre, post := ast[..i], ast[i..];
    assert ast == pre + post;
    if ProcessAst(t, pre).Processed? {
      PrefixBindsName(t, ast, i, name);
      assert post == [Some(ast[i].value)] + post[1..];
      ThrowsOnBoundName(ProcessAst(t, pre).table, ast[i].value, j, post[1..]);
    }
    ThrowPropagates(t, pre, post);
  }

  /** A throw in the first part, or in the second part from the table the
      first left, is a throw of the whole walk. */
  lemma ThrowPropagates(t: Table, a: seq<Option<RawEntry>>, b: seq<Option<RawEntry>>)
    ensures ProcessAst(t, a).ProcessFailed? || ProcessAst(ProcessAst(t, a).table, b).ProcessFailed?
            ==> ProcessAst(t, a + b).ProcessFailed?
  {
    ProcessAstAppend(t, a, b);
  }

  /** A name in the starting table or bound by a `@string` node before `i` is in
      the table a completed walk of the first `i` nodes leaves. */
  lemma PrefixBindsName(t: Table, ast: seq<Option<RawEntry>>, i: int, name: string)
    requires 0 <= i <= |ast| && ProcessAst(t, ast[..i]).Processed?
    requires name in t || BoundBefore(ast, i, name)
    ensures name in ProcessAst(t, ast[..i]).table
  {
    var pre := ast[..i];
    if name !in t {
      var k, j :| 0 <= k < i && ast[k].Some? && ast[k].value.metatype == MacroDef
                  && 0 <= j < |ast[k].value.fields| && ast[k].value.fields[j].0 == name;
      assert pre[k] == ast[k];
      assert BoundBefore(pre, |pre|, name);
      ProcessAstBindsNames(t, pre, name);
    }
  }

  /** A `@string` entry that binds a name already in the table throws, and the
      walk ends with it. */
  lemma ThrowsOnBoundName(t: Table, e: RawEntry, j: int, rest: seq<Option<RawEntry>>)
    requires e.metatype == MacroDef && 0 <= j < |e.fields| && e.fields[j].0 in t
    ensures ProcessAst(t, [Some(e)] + rest).ProcessFailed?
  {
    ProcessAstCons(t, e, rest);
    assert !FreshNames(t, e.fields);
  }

  /** A concatenation in a `@string` entry is reduced against the table as it
      stands when that field is reached, earlier fields of the same entry
      included. */
  lemma ConcatBindingSeesEarlierFields(t: Table, fs: seq<(string, Value)>, i: int)
    requires BindMacroDefs(t, fs).Bound?
    requires 0 <= i < |fs| && fs[i].1.Concat?
    ensures fs[i].0 in BindMacroDefs(t, fs).table
    ensures BindMacroDefs(t, fs).table[fs[i].0] == Expand(BindMacroDefs(t, fs[..i]).table, fs[i].1)
  {
    var head, tail := fs[..i], fs[i..];
    assert fs == head + tail;
    BindMacroDefsAppend(t, head, tail);
    assert tail[0] == fs[i];
    FirstFieldBound(BindMacroDefs(t, head).table, tail);
  }

  /** The first field of a binding that completes keeps the text it was
      bound to. */
  lemma FirstFieldBound(t: Table, fs: seq<(string, Value)>)
    requires fs != [] && BindMacroDefs(t, fs).Bound?
    ensures fs[0].0 in BindMacroDefs(t, fs).table
    ensures BindMacroDefs(t, fs).table[fs[0].0] == BindingText(t, fs[0].1)
  {
    var d := DefineMacro(t, fs[0].0, BindingText(t, fs[0].1));
    assert d.Success?;
    assert BindMacroDefs(t, fs) == BindMacroDefs(d.value, fs[1..]);
  }
}

=== FILE: scenarios.dfy ===
/** Concrete cases of `parseString` taken from the repository's tests, with the
    grammar's output written out as entry nodes. */
module Scenarios {
  import opened Types
  import opened Text
  import opened MacroTable
  import opened Resolver
  import opened ResolverLaws
  import opened Parsing

  function StringEntry(fields: seq<(string, Value)>): RawEntry {
    RawEntry("", "string", MacroDef, fields)
  }

  /** `@string{first = "First"}`, then `@string{second = first # " Second"}`,
      then `@article{key, title = second}` with expansion: the concatenation
      was reduced when `second` was defined, so the title is "First Second". */
  lemma ConcatenatedMacroScenario()
    ensures var s1 := ParseString(map[], Ast([Some(StringEntry([("first", Literal("First"))]))]), 0);
            var s2 := ParseString(s1.table, Ast([Some(StringEntry(
                        [("second", Concat([MacroRef("first"), Literal(" Second")]))]))]), 0);
            var s3 := ParseString(s2.table, Ast([Some(RawEntry("key", "article", Regular,
                        [("title", MacroRef("second"))]))]), EXPAND_MACROS);
            && s2.table == map["first" := "First", "second" := "First Second"]
            && |s3.entries| == 1 && s3.entries[0].fields == map["title" := "First Second"]
  {
    FirstDefinition();
    SecondDefinition();
    TitleUse();
  }

  lemma FirstDefinition()
    ensures ParseString(map[], Ast([Some(StringEntry([("first", Literal("First"))]))]), 0).table
         == map["first" := "First"]
  {
    var fs := [("first", Literal("First"))];
    assert BindMacroDefs(map[], fs) == Bound(map["first" := "First"]);
    ProcessAstSingle(map[], StringEntry(fs));
  }

  lemma SecondDefinition()
    ensures ParseString(map["first" := "First"], Ast([Some(StringEntry(
              [("second", Concat([MacroRef("first"), Literal(" Second")]))]))]), 0).table
         == map["first" := "First", "second" := "First Second"]
  {
    var t1 := map["first" := "First"];
    var v := Concat([MacroRef("first"), Literal(" Second")]);
    SecondValue();
    var fs := [("second", v)];
    var t2 := t1["second" := "First Second"];
    assert DefineMacro(t1, "second", BindingText(t1, v)) == Success(t2);
    assert BindMacroDefs(t1, fs) == Bound(t2);
    var e := StringEntry(fs);
    assert ProcessEntry(t1, e).table == t2;
    ProcessAstSingle(t1, e);
  }

  /** `first # " Second"` with `first` bound to "First". */
  lemma SecondValue()
    ensures Expand(map["first" := "First"], Concat([MacroRef("first"), Literal(" Second")]))
         == "First Second"
  {
    var t1 := map["first" := "First"];
    var a, b := [MacroRef("first")], [Literal(" Second")];
    FirstPart();
    SecondPart();
    assert [MacroRef("first"), Literal(" Second")] == a + b;
    ExpandConcatAppend(t1, a, b);
  }

  lemma FirstPart()
    ensures Expand(map["first" := "First"], Concat([MacroRef("first")])) == "First"
  {
    ExpandSingletonConcat(map["first" := "First"], MacroRef("first"));
    assert Lower("first") == "first";
  }

  lemma SecondPart()
    ensures Expand(map["first" := "First"], Concat([Literal(" Second")])) == " Second"
  {
    ExpandSingletonConcat(map["first" := "First"], Literal(" Second"));
    assert !IsBareWord(" Second") by { assert " Second"[0] == ' '; }
  }

  lemma TitleUse()
    ensures var t2 := map["first" := "First", "second" := "First Second"];
            var s3 := ParseString(t2, Ast([Some(RawEntry("key", "article", Regular,
                        [("title", MacroRef("second"))]))]), EXPAND_MACROS);
            |s3.entries| == 1 && s3.entries[0].fields == map["title" := "First Second"]
  {
    var t2 := map["first" := "First", "second" := "First Second"];
    var e := RawEntry("key", "article", Regular, [("title", MacroRef("second"))]);
    TitleResolved();
    ProcessAstSingle(t2, e);
    var x := Resolve(t2, e);
    assert ProcessAst(t2, [Some(e)]) == Processed([x], t2);
    TitleKeptByExpansion(x);
    assert ExpandPass(t2, [x]) == [ExpandEntry(t2, x)];
  }

  lemma TitleResolved()
    ensures Resolve(map["first" := "First", "second" := "First Second"],
                    RawEntry("key", "article", Regular, [("title", MacroRef("second"))])).fields
         == map["title" := "First Second"]
  {
    assert Lower("second") == "second";
    assert Lower("title") == "title";
  }

  /** "First Second" holds a space, so the expansion pass leaves it alone. */
  lemma TitleKeptByExpansion(x: Entry)
    requires x.fields == map["title" := "First Second"]
    ensures ExpandEntry(map["first" := "First", "second" := "First Second"], x).fields
         == map["title" := "First Second"]
  {
    assert !IsBareWord("First Second") by { assert "First Second"[5] == ' '; }
  }

  /** With `a` bound to "A", `@string{b = a}` binds `b` to the name "a" itself.
      A field `f = b` then reduces to "a"; only the expansion pass, which
      looks the whole value up once more, turns it into "A". */
  lemma BareWordBindingScenario(options: int)
    ensures var nodes := [Some(StringEntry([("b", MacroRef("a"))])),
                          Some(RawEntry("k", "article", Regular, [("f", MacroRef("b"))]))];
            var r := ParseString(map["a" := "A"], Ast(nodes), options);
            && r.table == map["a" := "A", "b" := "a"]
            && |r.entries| == 2
            && r.entries[1].fields == map["f" := if ExpandRequested(options) then "A" else "a"]
  {
    var t0, t1 := map["a" := "A"], map["a" := "A", "b" := "a"];
    var e1 := StringEntry([("b", MacroRef("a"))]);
    var e2 := RawEntry("k", "article", Regular, [("f", MacroRef("b"))]);
    BareWordBinding();
    BareWordUse();
    assert ProcessEntry(t0, e1) == Processed([Resolve(t1, e1)], t1);
    ProcessAstSingle(t1, e2);
    ProcessAstCons(t0, e1, [Some(e2)]);
    assert [Some(e1)] + [Some(e2)] == [Some(e1), Some(e2)];
    var x := Resolve(t1, e2);
    assert ProcessAst(t0, [Some(e1), Some(e2)]) == Processed([Resolve(t1, e1), x], t1);
    BareWordExpanded(x);
  }

  /** The expansion pass looks the bare word "a" up and finds "A". */
  lemma BareWordExpanded(x: Entry)
    requires x.fields == map["f" := "a"]
    ensures ExpandEntry(map["a" := "A", "b" := "a"], x).fields == map["f" := "A"]
  {
    assert IsBareWord("a") by { assert IsBareWordChar('a'); }
    assert Lower("a") == "a";
  }

  /** `b = a` binds `b` to the name "a". */
  lemma BareWordBinding()
    ensures BindMacroDefs(map["a" := "A"], [("b", MacroRef("a"))]) == Bound(map["a" := "A", "b" := "a"])
  {
    assert DefineMacro(map["a" := "A"], "b", "a") == Success(map["a" := "A", "b" := "a"]);
  }

  /** `f = b` reduces to the binding of `b`, the name "a". */
  lemma BareWordUse()
    ensures Resolve(map["a" := "A", "b" := "a"], RawEntry("k", "article", Regular, [("f", MacroRef("b"))])).fields
         == map["f" := "a"]
  {
    assert Lower("b") == "b";
    assert Lower("f") == "f";
  }

  /** `@string{a = "1"}` followed by `@string{a = "2"}` in one buffer: the second
      definition throws, so no entry is returned, yet the first binding stays. */
  lemma RedefinitionScenario(options: int)
    ensures var nodes := [Some(StringEntry([("a", Literal("1"))])),
                          Some(StringEntry([("a", Literal("2"))]))];
            var r := ParseString(map[], Ast(nodes), options);
            r.entries == [] && r.table == map["a" := "1"]
  {
  }
}

=== FILE: text.dfy ===
/** Character-level helpers: ASCII lower-casing, the bare-word character class
    of the macro lookup, and string joining. */
module Text {

  predicate IsUpper(c: char) {
    'A' <= c <= 'Z'
  }

  function LowerChar(c: char): (r: char)
    ensures !IsUpper(r)
    ensures !IsUpper(c) ==> r == c
  {
    if IsUpper(c) then (c as int + 32) as char else c
  }

  /** `String.prototype.toLowerCase`, restricted to ASCII letters. */
  function Lower(s: string): (r: string)
    ensures |r| == |s|
    ensures forall i :: 0 <= i < |s| ==> r[i] == LowerChar(s[i])
  {
    seq(|s|, i requires 0 <= i < |s| => LowerChar(s[i]))
  }

  predicate IsLowerCase(s: string) {
    forall i :: 0 <= i < |s| ==> !IsUpper(s[i])
  }

  lemma LowerIsLowerCase(s: string)
    ensures IsLowerCase(Lower(s))
  {
  }

  /** Lower-casing changes exactly the strings that hold an upper-case letter. */
  lemma LowerFixesExactlyLowerCase(s: string)
    ensures Lower(s) == s <==> IsLowerCase(s)
  {
    if !IsLowerCase(s) {
      var i :| 0 <= i < |s| && IsUpper(s[i]);
      assert Lower(s)[i] != s[i];
    }
  }

  lemma LowerIdempotent(s: string)
    ensures Lower(Lower(s)) == Lower(s)
  {
    LowerIsLowerCase(s);
    LowerFixesExactlyLowerCase(Lower(s));
  }

  /** The character class `[a-zA-Z0-9!$&*+\-./:<>?[\]^_`|]` of a bare word. */
  predicate IsBareWordChar(c: char) {
    || 'a' <= c <= 'z'
    || 'A' <= c <= 'Z'
    || '0' <= c <= '9'
    || c in "!$&*+-./:<>?[]^_`|"
  }

  /** A whole string that matches `^[...]+$` for the bare-word class. */
  predicate IsBareWord(s: string) {
    |s| > 0 && forall i :: 0 <= i < |s| ==> IsBareWordChar(s[i])
  }

  /** The regular expression `c+` read as `c c*`: one class character, then
      either the end or another match of `c+`. */
  predicate MatchesClassPlus(s: string)
    decreases |s|
  {
    |s| > 0 && IsBareWordChar(s[0]) && (|s| == 1 || MatchesClassPlus(s[1..]))
  }

  /** The bare-word test accepts exactly what the anchored regular expression
      matches. */
  lemma {:induction false} BareWordMatchesRegex(s: string)
    ensures IsBareWord(s) <==> MatchesClassPlus(s)
    decreases |s|
  {
    if |s| > 1 {
      BareWordMatchesRegex(s[1..]);
      if IsBareWord(s[1..]) && IsBareWordChar(s[0]) {
        forall i | 0 <= i < |s| ensures IsBareWordChar(s[i]) {
          if i > 0 { assert s[i] == s[1..][i - 1]; }
        }
      }
      if IsBareWord(s) {
        forall i | 0 <= i < |s[1..]| ensures IsBareWordChar(s[1..][i]) {
          assert s[1..][i] == s[i + 1];
        }
      }
    }
  }

  /** `Array.prototype.join('')`. */
  function Join(ss: seq<string>): (r: string)
    ensures ss == [] ==> r == ""
    ensures |ss| == 1 ==> r == ss[0]
  {
    if ss == [] then "" else ss[0] + Join(ss[1..])
  }

  /** `Array.prototype.join(sep)`: the elements with `sep` between each
      neighbouring pair. */
  function JoinWith(sep: string, ss: seq<string>): string
    decreases |ss|
  {
    if ss == [] then ""
    else if |ss| == 1 then ss[0]
    else ss[0] + sep + JoinWith(sep, ss[1..])
  }

  /** Joining puts the separator in front of every element after the first. */
  lemma {:induction false} JoinWithCons(sep: string, x: string, ys: seq<string>)
    ensures JoinWith(sep, [x] + ys) == x + Join(seq(|ys|, i requires 0 <= i < |ys| => sep + ys[i]))
    decreases |ys|
  {
    var pre := seq(|ys|, i requires 0 <= i < |ys| => sep + ys[i]);
    if ys != [] {
      JoinWithCons(sep, ys[0], ys[1..]);
      var rest := seq(|ys[1..]|, i requires 0 <= i < |ys[1..]| => sep + ys[1..][i]);
      assert pre[1..] == rest;
      assert ([x] + ys)[1..] == [ys[0]] + ys[1..];
      assert Join(pre) == sep + ys[0] + Join(rest);
    } else {
      assert [x] + ys == [x];
    }
  }

  /** `join('')` is `join` with the empty separator. */
  lemma {:induction false} JoinIsJoinWithEmpty(ss: seq<string>)
    ensures Join(ss) == JoinWith("", ss)
    decreases |ss|
  {
    if |ss| > 1 {
      JoinIsJoinWithEmpty(ss[1..]);
      assert ss[0] + "" == ss[0];
    }
  }

  lemma {:induction false} JoinAppend(a: seq<string>, b: seq<string>)
    ensures Join(a + b) == Join(a) + Join(b)
  {
    if a == [] {
      assert a + b == b;
    } else {
      assert (a + b)[1..] == a[1..] + b;
      JoinAppend(a[1..], b);
    }
  }
}

=== FILE: types.dfy ===
/** Entities shared by the macro table and the resolver: the entry record, the
    metatype enumeration, the grammar's raw value tree and the failure values
    that stand for the exceptions the parser throws. */
module Types {

  /** Bit of `parseString`'s options that asks for the extra expansion pass. */
  const EXPAND_MACROS: int := 2

  /** Coarse classification of an entry. */
  datatype Metatype = Unknown | Regular | Comment | Preamble | MacroDef

  datatype Option<+T> = None | Some(value: T)

  /** A field value as the grammar hands it over: a plain string, a `#`
      concatenation of values, or a bare word referring to a macro. */
  datatype Value =
    | Literal(text: string)
    | Concat(parts: seq<Value>)
    | MacroRef(name: string)

  /** An entry node of the grammar's output, before resolution. The fields keep
      the order in which the grammar produced them. */
  datatype RawEntry = RawEntry(key: string, entryType: string, metatype: Metatype,
                               fields: seq<(string, Value)>)

  /** A resolved entry: every field value is a final string. */
  datatype Entry = Entry(key: string, entryType: string, metatype: Metatype,
                         fields: map<string, string>)

  /** The macro table: macro name to replacement text. */
  type Table = map<string, string>

  /** The two programming errors `defineMacro` throws on. */
  datatype MacroError = EmptyMacroName | MacroRedefined(name: string)

  datatype Result<+T> = Success(value: T) | Failure(error: MacroError)

  /** `t2` keeps every binding of `t1`. */
  predicate Extends(t2: Table, t1: Table) {
    forall k :: k in t1 ==> k in t2 && t2[k] == t1[k]
  }
}
